=== FILE: README.md ===
# late: scheduling-latency measurement, modelled in Dafny

`late` measures two things. The first is how late a process wakes up after
asking to sleep. The second is how steadily it can run a fixed block of
copy work. It alternates a timed block of `memcpy` work with a timed
`nanosleep`. Each elapsed time goes into "interval sets", which are
accumulators of max, total and count. A once-a-second `SIGALRM` tick
reports and empties the per-second sets. `SIGINT` ends the run. A separate
calibration mode searches for the copy-loop count that takes a given number
of microseconds.

This project models the timing arithmetic and accounting of `late.c`.
Every clock reading (`gettimeofday`) is an input value, and so is every
signal delivery. The work itself and the sleep itself are opaque.

| file | module | models |
|---|---|---|
| `cint.dfy` | `CInt` | conversions to `unsigned int` and `uint64_t` (reduction modulo 2^32 and 2^64) |
| `timeval.dfy` | `Timevals` | `struct timeval` and the `timeradd`, `timersub` and `timercmp` macros |
| `iset.dfy` | `IntervalSets` | `struct iset` with `is_init`, `is_add` and `is_average`; `is_max`, `is_total` and `is_count` are the datatype's fields `max`, `total` and `count` |
| `calibrate.dfy` | `Calibration` | the rescaling loop of `work_memcpy_calibrate` |
| `latency.dfy` | `Latency` | the timespec conversion and the differences computed by `test_latency` |
| `sample_loop.dfy` | `SampleLoop` | the five global sets, `work_memcpy`'s recording, `test_latency`'s recording, `sigalarm`, `finished`, the `-b` baseline shift and the loop of `main` |

How the model is set up:

- A `Timeval` holds unbounded integers. `Micros(t) = sec * 1000000 + usec` is
  the duration it stands for. `Normalized(t)` means `0 <= usec < 1000000`.
- `timercmp` compares the seconds first and the microseconds only on a tie.
  That is a lexicographic order on the two fields. The maximum of an interval
  set is therefore stated in that order for every sample, and as the largest
  duration for normalized samples.
- `is_average` converts the total to `uint64_t` before dividing. The model
  writes that reduction out, so a negative total yields the same large value
  the source computes. A negative total is possible whenever samples are
  negative: any sample taken while the clock stepped backwards, and a latency
  sample whenever the measured sleep is shorter than the request.
- The calibration loop has no attempt limit, so it is modelled over a finite
  sequence of measured passes. A run that uses up the sequence without a
  measurement in the band ends as `Unsettled`.
- The sample loop runs over a sequence of `Cycle` records. Each record holds
  the signals delivered before the loop test, the clock readings around the
  work, a flag for `SIGINT` arriving during the work (which line 343
  observes), the clock readings around the sleep, and the reading of the
  run-time check. Ticks arrive only when `-x` or `-p` armed the alarm. The
  model accepts them in any case: without `-x` a tick only counts the second.

Three behaviours of the code shape the model:

- The calibrator has no attempt limit, no special step after a zero
  measurement and no overflow checks. It uses `SCALE` 100, a start count of
  1000, and the band `[(micro / 10) * 9, (micro / 10) * 11]` in `unsigned
  int`. A target below 10 us is accepted before any pass, because 0 lies in
  the band.
- The sleep is retried with `nanosleep` until it completes, even after
  `done` is set.
- Line 312 installs `finished` for `SIGALRM`, but line 313 replaces it with
  `sigalarm`. So only `SIGINT` sets `done`.

## Model

| member | source | states |
|---|---|---|
| Timevals.TimerAdd | late.c:75-85 | the sum's duration is the sum of the durations, for every input; the sum of two normalized values is normalized |
| Timevals.TimerSub | late.c:93-103 | the difference's duration is the difference of the durations, for every input; the result is normalized whenever the first operand's microseconds are in range and the second's are between 0 and one second, even when the seconds go negative |
| Timevals.TimerCmp | late.c:86-92 | every relation compares lexicographically on (sec, usec) for all inputs; for normalized inputs it agrees with the same relation on the durations |
| Timevals.SubUndoesAdd | late.c:75-103 | on normalized values, subtracting what was added gives back the original value |
| IntervalSets.Init | late.c:125-129 | an initialised set has count 0 and zero total and maximum |
| IntervalSets.Add | late.c:131-142 | the count grows by exactly one and the total by the sample's duration; the new maximum is the old maximum or the sample and is at least both, lexicographically and, for normalized values, in duration |
| IntervalSets.AddAll | late.c:131-142 | after a sequence of adds, the count grew by the number of samples, the total by their exact sum, and the maximum is one of the samples or the old maximum and is at least every sample |
| IntervalSets.Average | late.c:144-162 | an empty set averages to zero; otherwise the result is normalized and is the floor of the total, taken modulo 2^64, divided by the count; for a total in range that is the floor of the true mean |
| IntervalSets.AverageAtMostMax | late.c:144-167 | for normalized samples whose total is in range, the reported mean never exceeds the reported maximum |
| Calibration.Measured | late.c:391-393 | the pass time is the elapsed time between the two readings reduced modulo 2^32, so a clock step backwards gives a huge value; it equals the true difference when that is in range |
| Calibration.Rescale | late.c:379-381 | computed exactly, the new count never exceeds the proportional estimate count * micro / rmicro and falls short of it by less than micro / 100 + 1 |
| Calibration.RescaleWrapped | late.c:379-381 | computed in `unsigned int` as the source does, the new count always fits back into the `int` count, and it equals the exact rescaling while neither product leaves the 32-bit range |
| Calibration.PassCounts | late.c:373-393 | the first pass runs 1000 iterations; after a zero measurement the count is kept; otherwise it is the rescaled count, bounded as above when exact and below 2^32 / 100 as written; each pass's rmicro is its measurement |
| Calibration.Loop | late.c:376-398 | the loop returns the count of the first pass whose measurement lies in the band; `Unsettled` only if no supplied pass is in the band; a division by zero only as written, right after a pass measured 0 |
| Calibration.CalibrateAsWritten | late.c:366-403 | the returned count belongs to the first pass whose measurement is in the band, and no earlier pass measured 0; a 0 measurement before that ends in a division by zero; no pass runs exactly when the target is below 10 us |
| Calibration.ZeroMeasurementCrashes | late.c:394-397 | for every target of at least 10 us, a first pass that measures 0 us makes the source divide by zero |
| Calibration.UpperWraps | late.c:376-377 | the band's upper bound, computed in `unsigned int`, is exact below 3904515730 us and wraps to below the lower bound from there on |
| Calibration.HugeTargetNeverSettles | late.c:376-377 | from 3904515730 us on, no measurement is in the source's band, so its calibration never returns a count |
| Calibration.ProductWrapStalls | late.c:379-381 | for a 100 s target and work of 1 us per iteration, the source's second and every later pass run 14100654 iterations, outside the band, so its calibration never settles |
| Calibration.Calibrate | late.c:366-403 | with three corrections (the band's upper bound and line 381's rescaling computed without wrap-around, and the report's division guarded) the routine never faults and returns the count of the first pass whose measurement lies in the band |
| Calibration.SameBandBelowWrap | late.c:376-377 | below 3904515730 us the source's band and the corrected band accept the same measurements |
| Calibration.SecondCount | late.c:379-381 | after a first pass of 1000 iterations at p us each, the exact second pass runs (100 / p) * micro / 100 iterations; the source's second pass runs the same count exactly when (100 / p) * micro fits in 32 bits, and fewer otherwise |
| Calibration.SecondPassInBand | late.c:376-381 | for 1 <= p <= 10 and targets of at least 1000 us, that second pass measures between 0.9 and 1.0 times the target, inside the corrected band, and inside the source's band below 3904515730 us |
| Calibration.SettlesBy | late.c:376-398 | the loop returns a count no later than any pass whose measurement is in the band, when no pass up to it measured 0 us |
| Calibration.ConvergesOnLinearWork | late.c:373-402 | when the work takes p us per iteration (1 <= p <= 10), the corrected calibration returns a count within two passes for every target from 1000 us up to the 32-bit limit; the source's does so while (100 / p) * micro fits in 32 bits |
| Latency.SleepRequest | late.c:514-515 | the timespec has nanoseconds below one second, a whole number of microseconds in them, and represents exactly the requested microseconds |
| Latency.Measure | late.c:519-531 | the sleep sample is the elapsed time; the latency sample's duration is elapsed minus requested; for normalized readings the latency sample is normalized exactly when the request is at most one second more than the elapsed time's microsecond field, so always for requests up to one second |
| Latency.LongRequestUnnormalized | late.c:528-531 | a two-second request met exactly is recorded as 1 s and -1000000 us, which is not normalized |
| SampleLoop.InitialSets | late.c:294-300 | all five sets start exactly as `is_init` leaves a set: count 0 with a normalized zero total and maximum |
| SampleLoop.Work | late.c:405-430 | the work time goes into both work sets and changes their counts by one and their totals by that time; the latency and sleep sets are untouched |
| SampleLoop.Probe | late.c:483-536 | the sleep set gets the elapsed time, both latency sets get elapsed minus requested, each count grows by one, and the work sets are untouched |
| SampleLoop.Tick | late.c:195-216 | a tick counts one second; with -x it re-initialises the two per-second sets to exactly the `is_init` value, and the lifetime latency, work and sleep sets never change |
| SampleLoop.Deliver | late.c:189-216 | delivered ticks and SIGINT set `done` exactly when SIGINT arrived, count the ticks, leave the per-second sets at the `is_init` value after a tick with -x, and never touch the lifetime sets |
| SampleLoop.RunCycle | late.c:341-344 | the work is recorded iff work is configured; the probe is recorded iff a sleep is configured and `done` is still clear; once `done` is set no latency or sleep set changes |
| SampleLoop.Baseline | late.c:319-333 | with -b the start time is exactly two seconds later, and stays normalized |
| SampleLoop.ExpiredMeansElapsed | late.c:345-350 | for normalized readings the run-time check fires exactly when more than `rsecs` seconds have passed since the start time |
| SampleLoop.Loop | late.c:340-351 | the loop runs at most one cycle per input and at most `icount` cycles with -i; it ends on the count only after exactly `icount` cycles, on `done` only with `done` set, and on the time limit only after a cycle whose check fired |
| SampleLoop.LoopStopsAtFirstExit | late.c:340-344 | no cycle starts once `done` is set; only the last cycle can have seen SIGINT during its work; without SIGINT the loop never ends on `done` |
| SampleLoop.LoopStopsAtTimeLimit | late.c:345-350 | no cycle before the last passed the run time, and the last one did only if that ended the loop |
| SampleLoop.LoopRecordsWork | late.c:340-342 | the work set receives exactly the work times of the cycles that ran, in order, when work is configured, and is untouched otherwise |
| SampleLoop.LoopRecordsProbes | late.c:340-344 | the sleep and lifetime latency sets each receive one sample per cycle when a sleep is configured, except a last cycle interrupted during its work |
| SampleLoop.Run | late.c:294-351 | from empty sets, the work set equals the sets built by adding the cycles' work times; the sleep and latency counts equal the number of probing cycles; the count and time exits are as for the loop |
| SampleLoop.ExactIterations | late.c:340 | with -i and icount >= 0, no run limit and no SIGINT, the body runs exactly icount times, and each configured work and probe is recorded icount times |
| SampleLoop.InterruptBeforeCycle | late.c:340 | SIGINT before a loop test ends the loop with no further cycle and no lifetime set changed |
| SampleLoop.RunTimeLimit | late.c:315-350 | with normalized readings and -r, the run ends on time at the first cycle whose reading is more than rsecs seconds (plus two with -b) after the first reading |

## Findings

| source | as written | input that shows it | evidently intended | confidence | as-written member | corrected member |
|---|---|---|---|---|---|---|
| late.c:394-397 | after every pass the progress report evaluates `(count * SCALE) / rmicro`, including after a pass that measured 0 us | a target of 1000 us and a first pass whose two clock readings are equal (rmicro = 0) | skip that division when rmicro is 0, as line 380 does for the rescaling, so the pass is retried with the same count | not executed; integer division by zero is undefined in C and traps on common targets | Calibration.ZeroMeasurementCrashes | Calibration.Calibrate |
| late.c:376-377 | the upper bound `(micro / 10) * 11` is computed in `unsigned int` and wraps | a target of 3904515730 us, whose band becomes [3514064157, 7] and is empty | the bound 1.1 times the target, so that such targets can settle | not executed | Calibration.HugeTargetNeverSettles | Calibration.ConvergesOnLinearWork |
| late.c:379-381 | the product `((count * SCALE) / rmicro) * micro` is computed in `unsigned int` and wraps | a target of 100000000 us (100 s) with work of 1 us per iteration: the second pass runs 14100654 iterations instead of 100000000, and every later pass repeats that count | the proportional count, computed in a type wide enough for it | not executed | Calibration.ProductWrapStalls | Calibration.ConvergesOnLinearWork |

All three rows are modelled by `Calibration.CalibrateAsWritten`, which has
the unguarded division, the wrapping bound and the wrapping rescaling.
`Calibration.ZeroMeasurementCrashes` proves the crash for every target of at
least 10 us. `Calibration.HugeTargetNeverSettles` proves that no measurement
settles the source's calibration for targets from 3904515730 us on.
`Calibration.ProductWrapStalls` proves that the source never settles on the
100 s example. `Calibration.Calibrate` is the corrected version, with all
three corrections. Its contract rules the fault out, and
`Calibration.ConvergesOnLinearWork` proves that it settles on linear work for
every target up to the 32-bit limit. The same lemma shows that the source
settles whenever `(100 / p) * micro` fits in 32 bits.
`Calibration.SecondCount` shows that beyond that point the source's second
pass runs fewer iterations than the exact one, and
`Calibration.ProductWrapStalls` gives a target where the source then never
settles.

## Left out

- Option parsing (`getopt`, `atoi`), the root check and `usage`: command-line plumbing. `Config` carries the parsed values.
- `nice`, `rtprio`, `sched_getparam` and `test_prio`, with the `-p` priority printing: operating-system priority calls.
- Signal installation, the `-u` start gate (`sigsuspend` until `SIGUSR1`) and re-arming `alarm`: asynchronous signal delivery. Signals are input events between cycles instead. A tick in the middle of a cycle body, or any signal in the middle of an `is_add`, is not modelled. A `SIGINT` during the sleep or the run-time check acts like one delivered before the next loop test.
- `gettimeofday`, `sleep`, `nanosleep` and the `nanosleep` retry loop: their results are inputs. A failing clock read, which ends the program through `err`, is not modelled.
- The `memcpy` buffers and copy loop of `work_memcpy`: the work is opaque. Only the time it records matters.
- All printing: `tv_print`, `work_memcpy_report`, `test_latency_report`, the per-second report text, `cpu_report` with `getrusage` and its floating-point %CPU, and the final run time at lines 352-355 (a `timersub`, covered by `Timevals.TimerSub`).
- The disabled `#if 0` `usleep` retry block.
- C `int` and `long` overflow: `is_count++`, `tv_sec * 1000000`, and `icount--` going past the smallest `int`. The uninitialised `wcount` does not matter because work times are inputs.
- Calibration.RescaleWrapped: `count * SCALE` can overflow a signed `int` once the count exceeds 21474836. C leaves that undefined; the model takes the two's complement wrap, which the conversion to `unsigned int` then reduces modulo 2^32.

=== FILE: calibrate.dfy ===
/** `work_memcpy_calibrate` of late.c: search for the iteration count of the
    copy loop that makes one run take a target number of microseconds.

    Each pass of the loop rescales the count by the ratio of the target to the
    last measured time (unless that measurement was zero), runs the work with
    the new count between two clock readings, and measures the elapsed time.
    The loop stops as soon as a measurement lies in the band
    [(micro / 10) * 9, (micro / 10) * 11]; there is no attempt limit. The clock
    readings of each pass are inputs, so a run is modelled over a finite
    sequence of them and may end without having settled.

    Two versions are modelled side by side: the loop as written, with its
    `unsigned int` arithmetic and the unguarded division of its report, and a
    corrected loop that computes exactly and guards that division. */
module Calibration {
  import opened CInt
  import opened Timevals

  /** `SCALE`, the factor that keeps two decimal digits of the ratio. */
  const Scale: nat := 100
  /** The count of the first pass. */
  const StartCount: nat := 1000

  /** The clock readings taken around one `work_memcpy(count)` call. */
  datatype Trial = Trial(start: Timeval, end: Timeval)

  /** `rmicro`: the elapsed time of a pass, stored into an `unsigned int`, so
      reduced modulo 2^32 (a clock step backwards gives a huge value). */
  function Measured(t: Trial): (r: nat)
    ensures r < Two32
    ensures (Micros(t.end) - Micros(t.start) - r) % Two32 == 0
    ensures 0 <= Micros(t.end) - Micros(t.start) < Two32 ==> r == Micros(t.end) - Micros(t.start)
  {
    AsUint32(Micros(TimerSub(t.end, t.start)))
  }

  /** The smallest target for which `(micro / 10) * 11` no longer fits in an
      `unsigned int`. */
  const BandWrap: nat := 3904515730

  /** The band's upper bound. The source computes it in `unsigned int`
      (`wrapped`); the corrected version computes it without wrap-around. */
  function Upper(micro: nat, wrapped: bool): nat {
    if wrapped then AsUint32((micro / 10) * 11) else (micro / 10) * 11
  }

  /** The acceptance band of the loop condition (lines 376-377). */
  predicate InBand(rmicro: nat, micro: nat, wrapped: bool) {
    (micro / 10) * 9 <= rmicro <= Upper(micro, wrapped)
  }

  lemma DivBounds(x: nat, d: nat)
    requires d > 0
    ensures (x / d) * d <= x < (x / d + 1) * d
  {
  }

  lemma MulMonotone(a: int, b: int, k: nat)
    requires a <= b
    ensures a * k <= b * k
  {
  }

  lemma RescaleArithmetic(count: nat, rmicro: nat, micro: nat, q: nat, r: nat)
    requires rmicro > 0
    requires q == (count * Scale) / rmicro && r == (q * micro) / Scale
    ensures r * rmicro <= count * micro
    ensures count * micro * Scale < (r + 1) * Scale * rmicro + micro * rmicro
  {
    DivBounds(count * Scale, rmicro);
    DivBounds(q * micro, Scale);
    // r * Scale * rmicro <= q * micro * rmicro <= count * Scale * micro
    MulMonotone(r * Scale, q * micro, rmicro);
    MulMonotone(q * rmicro, count * Scale, micro);
    assert r * rmicro * Scale <= count * micro * Scale;
    // count * Scale <= (q + 1) * rmicro - 1, and q * micro <= (r + 1) * Scale - 1
    MulMonotone(count * Scale, (q + 1) * rmicro - 1, micro);
    MulMonotone(q * micro, (r + 1) * Scale - 1, rmicro);
  }

  /** Line 381 computed exactly: the new count
      `((count * SCALE) / rmicro * micro) / SCALE`. It never exceeds the
      proportional estimate `count * micro / rmicro` and falls short of it by
      less than `micro / SCALE + 1`. */
  function Rescale(count: nat, rmicro: nat, micro: nat): (r: nat)
    requires rmicro > 0
    ensures r * rmicro <= count * micro
    ensures count * micro * Scale < (r + 1) * Scale * rmicro + micro * rmicro
  {
    var q := (count * Scale) / rmicro;
    var r := (q * micro) / Scale;
    RescaleArithmetic(count, rmicro, micro, q, r);
    r
  }

  /** Line 381 as the source evaluates it. `count * SCALE` is an `int` that is
      converted to `unsigned int` for the division by the unsigned `rmicro`,
      and the product with `micro` is taken in `unsigned int`; both are
      reduced modulo 2^32 (a two's complement wrap of the `int` product
      reduces to the same value). The result always fits back into the `int`
      count, and it agrees with the exact rescaling while neither product
      leaves the 32-bit range. */
  function RescaleWrapped(count: nat, rmicro: nat, micro: nat): (r: nat)
    requires rmicro > 0
    ensures r * Scale < Two32
    ensures count * Scale < Two32 && ((count * Scale) / rmicro) * micro < Two32 ==>
              r == Rescale(count, rmicro, micro)
  {
    var q := AsUint32(count * Scale) / rmicro;
    AsUint32(q * micro) / Scale
  }

  /** The loop's two variables: the count of the last pass and its measurement. */
  datatype CalState = CalState(count: nat, rmicro: nat)

  /** One pass of the loop body (lines 380-393), with the source's or the
      exact rescaling. */
  function NextTrial(micro: nat, st: CalState, t: Trial, asWritten: bool): CalState {
    var count :=
      if st.rmicro == 0 then st.count
      else if asWritten then RescaleWrapped(st.count, st.rmicro, micro)
      else Rescale(st.count, st.rmicro, micro);
    CalState(count, Measured(t))
  }

  /** Reference: the loop variables after `n` passes, ignoring the exit test. */
  function StateAfter(micro: nat, trials: seq<Trial>, n: nat, asWritten: bool): CalState
    requires n <= |trials|
  {
    if n == 0 then CalState(StartCount, 0)
    else NextTrial(micro, StateAfter(micro, trials, n - 1, asWritten), trials[n - 1], asWritten)
  }

  /** The counts the passes run with: the first pass runs 1000 iterations; a
      later pass keeps the count after a zero measurement; otherwise the exact
      version runs at most the proportional estimate `count * micro / rmicro`
      and the source's version a count below 2^32 / 100. */
  lemma PassCounts(micro: nat, trials: seq<Trial>, n: nat, asWritten: bool)
    requires 0 < n <= |trials|
    ensures StateAfter(micro, trials, n, asWritten).rmicro == Measured(trials[n - 1])
    ensures n == 1 ==> StateAfter(micro, trials, n, asWritten).count == StartCount
    ensures var prev := StateAfter(micro, trials, n - 1, asWritten);
            var cur := StateAfter(micro, trials, n, asWritten);
            (prev.rmicro == 0 ==> cur.count == prev.count) &&
            (prev.rmicro != 0 && !asWritten ==>
               cur.count * prev.rmicro <= prev.count * micro &&
               prev.count * micro * Scale < (cur.count + 1) * Scale * prev.rmicro + micro * prev.rmicro) &&
            (prev.rmicro != 0 && asWritten ==> cur.count * Scale < Two32)
  {
  }

  /** How a calibration run ends. `Calibrated` carries the returned count and
      the number of passes made; `Unsettled` means every supplied measurement
      was outside the band (the source would keep looping); `DivisionByZero`
      is the crash of line 397 after the given pass. */
  datatype Outcome = Calibrated(count: nat, passes: nat) | Unsettled(count: nat) | DivisionByZero(passes: nat)

  /** The loop of lines 376-398 from pass `n` on. With `asWritten` the band's
      upper bound and the rescaling wrap as in `unsigned int`, and each pass
      evaluates `(count * SCALE) / rmicro` for its report after measuring, as
      line 397 does; without it the arithmetic is exact and that division is
      left out. */
  function Loop(micro: nat, trials: seq<Trial>, n: nat, st: CalState, asWritten: bool): (r: Outcome)
    requires micro < Two32
    requires n <= |trials| && st == StateAfter(micro, trials, n, asWritten)
    ensures r.Calibrated? ==>
              n <= r.passes <= |trials| &&
              InBand(StateAfter(micro, trials, r.passes, asWritten).rmicro, micro, asWritten) &&
              r.count == StateAfter(micro, trials, r.passes, asWritten).count &&
              forall j :: n <= j < r.passes ==>
                !InBand(StateAfter(micro, trials, j, asWritten).rmicro, micro, asWritten)
    ensures r.Unsettled? ==>
              r.count == StateAfter(micro, trials, |trials|, asWritten).count &&
              forall j :: n <= j <= |trials| ==>
                !InBand(StateAfter(micro, trials, j, asWritten).rmicro, micro, asWritten)
    ensures r.DivisionByZero? ==>
              asWritten && n < r.passes <= |trials| &&
              StateAfter(micro, trials, r.passes, asWritten).rmicro == 0 &&
              forall j :: n <= j < r.passes ==>
                !InBand(StateAfter(micro, trials, j, asWritten).rmicro, micro, asWritten)
    ensures asWritten && (r.Calibrated? || r.DivisionByZero?) ==>
              forall j :: n < j < r.passes ==> StateAfter(micro, trials, j, asWritten).rmicro != 0
    ensures asWritten && r.Unsettled? ==>
              forall j :: n < j <= |trials| ==> StateAfter(micro, trials, j, asWritten).rmicro != 0
    decreases |trials| - n
  {
    if InBand(st.rmicro, micro, asWritten) then Calibrated(st.count, n)
    else if n == |trials| then Unsettled(st.count)
    else
      var next := NextTrial(micro, st, trials[n], asWritten);
      assert next == StateAfter(micro, trials, n + 1, asWritten);
      if asWritten && next.rmicro == 0 then DivisionByZero(n + 1)
      else Loop(micro, trials, n + 1, next, asWritten)
  }

  /** `work_memcpy_calibrate` as written: the returned count is the one of
      the first pass whose measurement lies in the band (no pass at all when
      the target is below 10 us, since 0 is then in the band); a zero
      measurement before that crashes the run. */
  function CalibrateAsWritten(micro: nat, trials: seq<Trial>): (r: Outcome)
    requires micro < Two32
    ensures r.Calibrated? ==>
              r.passes <= |trials| &&
              InBand(StateAfter(micro, trials, r.passes, true).rmicro, micro, true) &&
              r.count == StateAfter(micro, trials, r.passes, true).count &&
              (forall j :: 0 <= j < r.passes ==> !InBand(StateAfter(micro, trials, j, true).rmicro, micro, true)) &&
              forall j :: 0 < j <= r.passes ==> StateAfter(micro, trials, j, true).rmicro != 0
    ensures r.DivisionByZero? ==>
              0 < r.passes <= |trials| &&
              StateAfter(micro, trials, r.passes, true).rmicro == 0 &&
              (forall j :: 0 <= j < r.passes ==> !InBand(StateAfter(micro, trials, j, true).rmicro, micro, true)) &&
              forall j :: 0 < j < r.passes ==> StateAfter(micro, trials, j, true).rmicro != 0
    ensures r.Unsettled? ==>
              r.count == StateAfter(micro, trials, |trials|, true).count &&
              (forall j :: 0 <= j <= |trials| ==> !InBand(StateAfter(micro, trials, j, true).rmicro, micro, true)) &&
              forall j :: 0 < j <= |trials| ==> StateAfter(micro, trials, j, true).rmicro != 0
    ensures (r.Calibrated? && r.passes == 0) <==> micro < 10
  {
    Loop(micro, trials, 0, CalState(StartCount, 0), true)
  }

  /** A pass that measures 0 us crashes the source's calibration, whatever the
      target, unless an earlier pass was already in the band. */
  lemma ZeroMeasurementCrashes(micro: nat, t: Trial, rest: seq<Trial>)
    requires 10 <= micro < Two32
    requires Micros(t.end) == Micros(t.start)
    ensures CalibrateAsWritten(micro, [t] + rest) == DivisionByZero(1)
  {
    var trials := [t] + rest;
    assert StateAfter(micro, trials, 1, true).rmicro == 0;
  }

  /** Below `BandWrap` the source's upper bound is exact; from `BandWrap` on
      it wraps to below the lower bound. */
  lemma UpperWraps(micro: nat)
    requires micro < Two32
    ensures micro < BandWrap ==> Upper(micro, true) == (micro / 10) * 11
    ensures BandWrap <= micro ==> Upper(micro, true) < (micro / 10) * 9
  {
    var d := micro / 10;
    if micro < BandWrap {
      MulMonotone(d, 390451572, 11);
    } else {
      MulMonotone(390451573, d, 9);
      MulMonotone(d, 429496729, 11);
      MulMonotone(390451573, d, 11);
      assert Two32 <= d * 11 < 2 * Two32;
      assert Upper(micro, true) == d * 11 - Two32;
    }
  }

  /** From `BandWrap` on the source's band is empty, so its calibration never
      settles, whatever the measurements. */
  lemma HugeTargetNeverSettles(micro: nat, trials: seq<Trial>)
    requires BandWrap <= micro < Two32
    ensures forall r: nat :: !InBand(r, micro, true)
    ensures !CalibrateAsWritten(micro, trials).Calibrated?
  {
    UpperWraps(micro);
  }

  /** The 100 s target of `ProductWrapStalls`, and the count its second and
      every later pass runs. */
  const StallTarget: nat := 100000000
  const StallCount: nat := 14100654

  /** The second pass: `100 * 100000000` wraps to 1410065408. */
  lemma StallFirstRescale()
    ensures RescaleWrapped(StartCount, StartCount, StallTarget) == StallCount
  {
    assert AsUint32(StartCount * Scale) == 100000;
    assert AsUint32(100 * StallTarget) == 1410065408;
  }

  /** Every later pass: `14100654 * 100` fits, the ratio is 100 again, and the
      product wraps the same way. */
  lemma StallNextRescale()
    ensures RescaleWrapped(StallCount, StallCount, StallTarget) == StallCount
  {
    assert AsUint32(StallCount * Scale) == 1410065400;
    assert AsUint32(100 * StallTarget) == 1410065408;
  }

  /** Under work of 1 us per iteration, every pass of the source's loop from
      the second on runs `StallCount` iterations. */
  lemma {:induction false} StallState(trials: seq<Trial>, n: nat)
    requires forall k :: 0 <= k < |trials| ==>
               Measured(trials[k]) == StateAfter(StallTarget, trials, k + 1, true).count
    requires 2 <= n <= |trials|
    ensures StateAfter(StallTarget, trials, n, true) == CalState(StallCount, StallCount)
    decreases n
  {
    var prev := StateAfter(StallTarget, trials, n - 1, true);
    if n == 2 {
      assert StateAfter(StallTarget, trials, 0, true) == CalState(StartCount, 0);
      assert Measured(trials[0]) == prev.count == StartCount;
      StallFirstRescale();
    } else {
      StallState(trials, n - 1);
      StallNextRescale();
    }
    assert StateAfter(StallTarget, trials, n, true).count == StallCount;
    assert Measured(trials[n - 1]) == StateAfter(StallTarget, trials, n, true).count;
  }

  /** With a target of 100 s and work of 1 us per iteration the source never
      settles: line 381's unsigned product wraps, the second pass runs 14100654
      iterations instead of 100000000, and every later pass repeats that
      count, which is outside the band [90000000, 110000000]. */
  lemma ProductWrapStalls(trials: seq<Trial>)
    requires forall k :: 0 <= k < |trials| ==>
               Measured(trials[k]) == StateAfter(StallTarget, trials, k + 1, true).count
    ensures forall n :: 2 <= n <= |trials| ==>
              StateAfter(StallTarget, trials, n, true).count == StallCount
    ensures CalibrateAsWritten(StallTarget, trials).Unsettled?
  {
    forall n | 0 <= n <= |trials|
      ensures !InBand(StateAfter(StallTarget, trials, n, true).rmicro, StallTarget, true)
      ensures 0 < n ==> StateAfter(StallTarget, trials, n, true).rmicro != 0
      ensures 2 <= n ==> StateAfter(StallTarget, trials, n, true).count == StallCount
    {
      if n == 1 {
        assert StateAfter(StallTarget, trials, 1, true) == CalState(StartCount, StartCount);
      } else if n >= 2 {
        StallState(trials, n);
      }
    }
  }

  /** `work_memcpy_calibrate` corrected: the band's upper bound and the
      rescaling are computed without wrap-around, and the report's division is
      guarded the way line 380 guards the rescaling, so a zero measurement is
      retried with the same count. The returned count is the one of the first
      pass whose measurement lies in the band. */
  function Calibrate(micro: nat, trials: seq<Trial>): (r: Outcome)
    requires micro < Two32
    ensures !r.DivisionByZero?
    ensures r.Calibrated? ==>
              r.passes <= |trials| &&
              InBand(StateAfter(micro, trials, r.passes, false).rmicro, micro, false) &&
              r.count == StateAfter(micro, trials, r.passes, false).count &&
              forall j :: 0 <= j < r.passes ==> !InBand(StateAfter(micro, trials, j, false).rmicro, micro, false)
    ensures r.Unsettled? ==>
              r.count == StateAfter(micro, trials, |trials|, false).count &&
              forall j :: 0 <= j <= |trials| ==> !InBand(StateAfter(micro, trials, j, false).rmicro, micro, false)
    ensures (r.Calibrated? && r.passes == 0) <==> micro < 10
  {
    Loop(micro, trials, 0, CalState(StartCount, 0), false)
  }

  /** Below `BandWrap` both versions use the same band. */
  lemma SameBandBelowWrap(micro: nat)
    requires micro < BandWrap
    ensures forall r: nat :: InBand(r, micro, true) <==> InBand(r, micro, false)
  {
    UpperWraps(micro);
  }

  /** The second pass's count when the first pass of 1000 iterations took
      exactly `1000 * p` microseconds: `100 / p` hundredths of the target.
      The source's count is the same exactly when `(100 / p) * micro` fits in
      32 bits, and smaller otherwise. */
  lemma SecondCount(micro: nat, p: nat)
    requires 1 <= p
    ensures Rescale(StartCount, StartCount * p, micro) == ((100 / p) * micro) / Scale
    ensures (100 / p) * micro < Two32 ==>
              RescaleWrapped(StartCount, StartCount * p, micro) == ((100 / p) * micro) / Scale
    ensures (100 / p) * micro >= Two32 ==>
              RescaleWrapped(StartCount, StartCount * p, micro) < ((100 / p) * micro) / Scale
  {
    var q := (StartCount * Scale) / (StartCount * p);
    DivBounds(StartCount * Scale, StartCount * p);
    DivBounds(100, p);
    assert q * p <= 100 < (q + 1) * p;
    if q < 100 / p {
      MulMonotone(q + 1, 100 / p, p);
    } else if q > 100 / p {
      MulMonotone(100 / p + 1, q, p);
    }
    assert q == 100 / p;
    var x := q * micro;
    if x >= Two32 {
      assert AsUint32(StartCount * Scale) == StartCount * Scale;
      assert RescaleWrapped(StartCount, StartCount * p, micro) == AsUint32(x) / Scale;
      if x < Two32 + Scale {
        assert AsUint32(x) == x - Two32;
      } else {
        DivBounds(x, Scale);
      }
    }
  }

  /** The second pass's measurement under `p` us per iteration lies between
      0.9 and 1.0 times the target, inside the exact band, and inside the
      source's band below `BandWrap`. */
  lemma SecondPassInBand(micro: nat, p: nat, c: nat)
    requires 1000 <= micro < Two32 && 1 <= p <= 10
    requires c == ((100 / p) * micro) / Scale
    ensures 90 * micro < Scale * (p * c) && p * c <= micro
    ensures p * c > 0 && InBand(p * c, micro, false)
    ensures micro < BandWrap ==> InBand(p * c, micro, true)
  {
    var a := 100 / p;
    DivBounds(100, p);
    assert 91 <= a * p <= 100;
    DivBounds(a * micro, Scale);
    assert c * Scale <= a * micro < c * Scale + Scale;
    // p * c * 100 <= p * a * micro <= 100 * micro
    MulMonotone(c * Scale, a * micro, p);
    MulMonotone(a * p, 100, micro);
    assert p * c <= micro;
    // p * c * 100 > p * a * micro - 100 * p >= 91 * micro - 100 * p >= 90 * micro
    MulMonotone(a * micro, c * Scale + Scale - 1, p);
    MulMonotone(91, a * p, micro);
    assert p * c * Scale > 90 * micro;
    UpperWraps(micro);
  }

  /** The loop settles no later than a pass whose measurement is in the band,
      when no pass up to it measured 0 us. */
  lemma SettlesBy(micro: nat, trials: seq<Trial>, i: nat, asWritten: bool)
    requires micro < Two32 && 0 < i <= |trials|
    requires InBand(StateAfter(micro, trials, i, asWritten).rmicro, micro, asWritten)
    requires forall j :: 0 < j <= i ==> StateAfter(micro, trials, j, asWritten).rmicro != 0
    ensures Loop(micro, trials, 0, CalState(StartCount, 0), asWritten).Calibrated?
    ensures Loop(micro, trials, 0, CalState(StartCount, 0), asWritten).passes <= i
  {
    assert StateAfter(micro, trials, 0, asWritten) == CalState(StartCount, 0);
  }

  /** When the first two passes take exactly `p` microseconds per iteration,
      with 1 <= p <= 10, the corrected calibration settles within two passes
      for every target from 1000 us up to the 32-bit limit; the source's does
      so while `(100 / p) * micro` fits in 32 bits (which also keeps the
      target below `BandWrap`). */
  lemma ConvergesOnLinearWork(micro: nat, p: nat, trials: seq<Trial>)
    requires 1000 <= micro < Two32 && 1 <= p <= 10
    requires |trials| >= 2
    requires Measured(trials[0]) == p * StartCount
    requires Measured(trials[1]) == p * (((100 / p) * micro) / Scale)
    ensures Calibrate(micro, trials).Calibrated? && Calibrate(micro, trials).passes <= 2
    ensures (100 / p) * micro < Two32 ==>
              CalibrateAsWritten(micro, trials).Calibrated? && CalibrateAsWritten(micro, trials).passes <= 2
  {
    var c := ((100 / p) * micro) / Scale;
    SecondCount(micro, p);
    SecondPassInBand(micro, p, c);
    SecondStateExact(micro, p, trials);
    var i := if InBand(p * StartCount, micro, false) then 1 else 2;
    SettlesBy(micro, trials, i, false);
    if (100 / p) * micro < Two32 {
      SecondStateWrapped(micro, p, trials);
      SameBandBelowWrap(micro);
      SettlesBy(micro, trials, i, true);
    }
  }

  /** The first two passes of the exact loop under `p` us per iteration. */
  lemma SecondStateExact(micro: nat, p: nat, trials: seq<Trial>)
    requires 1000 <= micro && 1 <= p && |trials| >= 2
    requires Measured(trials[0]) == p * StartCount
    requires Measured(trials[1]) == p * (((100 / p) * micro) / Scale)
    ensures StateAfter(micro, trials, 1, false) == CalState(StartCount, p * StartCount)
    ensures StateAfter(micro, trials, 2, false) == CalState(((100 / p) * micro) / Scale, Measured(trials[1]))
  {
    assert StateAfter(micro, trials, 0, false) == CalState(StartCount, 0);
    SecondCount(micro, p);
  }

  /** While `(100 / p) * micro` fits in 32 bits, the target is below
      `BandWrap` and the source's second count is the exact one. */
  lemma WrappedSecondCount(micro: nat, p: nat)
    requires 1 <= p <= 10 && (100 / p) * micro < Two32
    ensures micro < BandWrap
    ensures RescaleWrapped(StartCount, StartCount * p, micro) == ((100 / p) * micro) / Scale
  {
    DivBounds(100, p);
    MulMonotone(10, 100 / p, micro);
    SecondCount(micro, p);
  }

  /** The first two passes of the source's loop under `p` us per iteration,
      while `(100 / p) * micro` fits in 32 bits: the same as the exact loop. */
  lemma SecondStateWrapped(micro: nat, p: nat, trials: seq<Trial>)
    requires 1000 <= micro && 1 <= p <= 10 && |trials| >= 2
    requires (100 / p) * micro < Two32
    requires Measured(trials[0]) == p * StartCount
    requires Measured(trials[1]) == p * (((100 / p) * micro) / Scale)
    ensures micro < BandWrap
    ensures StateAfter(micro, trials, 1, true) == CalState(StartCount, p * StartCount)
    ensures StateAfter(micro, trials, 2, true) == CalState(((100 / p) * micro) / Scale, Measured(trials[1]))
  {
    WrappedSecondCount(micro, p);
    assert StateAfter(micro, trials, 0, true) == CalState(StartCount, 0);
    var st1 := StateAfter(micro, trials, 1, true);
    assert st1 == CalState(StartCount, p * StartCount);
    assert StateAfter(micro, trials, 2, true) == NextTrial(micro, st1, trials[1], true);
  }
}

=== FILE: cint.dfy ===
/** Conversions of C's integer types that the timing code relies on.
    Dafny integers are unbounded; these functions write out the reduction
    that happens when a signed value is stored into an unsigned type. */
module CInt {

  const Two32: nat := 0x1_0000_0000
  const Two64: nat := 0x1_0000_0000_0000_0000

  /** Conversion to `unsigned int`: the value modulo 2^32. */
  function AsUint32(x: int): (r: nat)
    ensures r < Two32
    ensures (x - r) % Two32 == 0
    ensures 0 <= x < Two32 ==> r == x
  {
    x % Two32
  }

  /** Conversion to `uint64_t`: the value modulo 2^64. */
  function AsUint64(x: int): (r: nat)
    ensures r < Two64
    ensures (x - r) % Two64 == 0
    ensures 0 <= x < Two64 ==> r == x
  {
    x % Two64
  }
}

=== FILE: iset.dfy ===
/** `struct iset` of late.c: an accumulator of timing samples that keeps the
    largest sample, the running total and the number of samples. The getters
    `is_max`, `is_total` and `is_count` are the fields `max`, `total` and
    `count` of the datatype. */
module IntervalSets {
  import opened CInt
  import opened Timevals

  datatype ISet = ISet(max: Timeval, total: Timeval, count: nat)

  /** Every sample of a sequence is normalized. */
  predicate AllNormalized(xs: seq<Timeval>) {
    forall i :: 0 <= i < |xs| ==> Normalized(xs[i])
  }

  /** The exact sum of the durations of a sequence of samples. */
  function SumMicros(xs: seq<Timeval>): int {
    if |xs| == 0 then 0 else Micros(xs[0]) + SumMicros(xs[1..])
  }

  /** `is_init`: the empty set (also the per-second reset). */
  function Init(): (s: ISet)
    ensures s.count == 0
    ensures Micros(s.total) == 0 && Micros(s.max) == 0
    ensures Normalized(s.total) && Normalized(s.max)
  {
    ISet(TV(0, 0), TV(0, 0), 0)
  }

  /** `is_add`: one more sample. The count grows by one, the total by the
      sample's duration, and the maximum becomes the larger of the old maximum
      and the sample in the order `timercmp` uses. */
  function Add(s: ISet, t: Timeval): (r: ISet)
    ensures r.count == s.count + 1
    ensures Micros(r.total) == Micros(s.total) + Micros(t)
    ensures Normalized(s.total) && Normalized(t) ==> Normalized(r.total)
    ensures LexLe(t, r.max) && LexLe(s.max, r.max)
    ensures r.max == t || r.max == s.max
    ensures Normalized(s.max) && Normalized(t) ==>
              Micros(t) <= Micros(r.max) && Micros(s.max) <= Micros(r.max)
  {
    var max := if TimerCmp(t, s.max, Gt) then t else s.max;
    ISet(max, TimerAdd(s.total, t), s.count + 1)
  }

  /** The set after adding the samples of `xs` in order. */
  function AddAll(s: ISet, xs: seq<Timeval>): (r: ISet)
    ensures r.count == s.count + |xs|
    ensures Micros(r.total) == Micros(s.total) + SumMicros(xs)
    ensures LexLe(s.max, r.max)
    ensures forall i :: 0 <= i < |xs| ==> LexLe(xs[i], r.max)
    ensures r.max == s.max || r.max in xs
    ensures Normalized(s.total) && AllNormalized(xs) ==> Normalized(r.total)
    ensures Normalized(s.max) && AllNormalized(xs) ==>
              Normalized(r.max) && Micros(s.max) <= Micros(r.max) &&
              forall i :: 0 <= i < |xs| ==> Micros(xs[i]) <= Micros(r.max)
    decreases |xs|
  {
    if |xs| == 0 then s else AddAll(Add(s, xs[0]), xs[1..])
  }

  /** `is_average`: the mean of the samples, rounded down, as a normalized
      value; zero for an empty set. Like the source, the total is first
      converted to `uint64_t`, so a negative total is reduced modulo 2^64. */
  function Average(s: ISet): (r: Timeval)
    ensures Normalized(r) && r.sec >= 0
    ensures s.count == 0 ==> Micros(r) == 0
    ensures s.count > 0 ==>
              Micros(r) * s.count <= AsUint64(Micros(s.total)) < (Micros(r) + 1) * s.count
    ensures s.count > 0 && 0 <= Micros(s.total) < Two64 ==>
              Micros(r) == Micros(s.total) / s.count
  {
    if s.count == 0 then TV(0, 0)
    else
      var q := AsUint64(Micros(s.total)) / s.count;
      TV(q / UsecPerSec, q % UsecPerSec)
  }

  /** A sum of samples none of which exceeds `m` is at most `|xs| * m`. */
  lemma {:induction false} SumAtMost(xs: seq<Timeval>, m: int)
    requires forall i :: 0 <= i < |xs| ==> Micros(xs[i]) <= m
    ensures SumMicros(xs) <= |xs| * m
    decreases |xs|
  {
    if |xs| > 0 {
      SumAtMost(xs[1..], m);
      assert (|xs| - 1) * m + m == |xs| * m;
    }
  }

  /** Cancelling a positive factor from both sides of `<=`. */
  lemma CancelFactor(a: int, b: int, n: int)
    requires n > 0 && a * n <= b * n
    ensures a <= b
  {
  }

  /** The reported mean of normalized samples never exceeds the reported
      maximum, when the total is within the range of `uint64_t`. */
  lemma AverageAtMostMax(xs: seq<Timeval>)
    requires |xs| > 0 && AllNormalized(xs)
    requires 0 <= SumMicros(xs) < Two64
    ensures Micros(Average(AddAll(Init(), xs))) <= Micros(AddAll(Init(), xs).max)
  {
    var s := AddAll(Init(), xs);
    var a := Micros(Average(s));
    var m := Micros(s.max);
    SumAtMost(xs, m);
    assert a * |xs| <= m * |xs|;
    CancelFactor(a, m, |xs|);
  }
}

=== FILE: latency.dfy ===
/** The arithmetic of `test_latency` in late.c: the conversion of the requested
    sleep into a `struct timespec`, and the two values recorded after the
    sleep — the time actually slept and that time minus the request. The clock
    readings before and after the sleep are inputs; the `nanosleep` retry loop
    itself is not modelled. */
module Latency {
  import opened CInt
  import opened Timevals

  const NsecPerSec: int := 1000000000
  const NsecPerUsec: int := 1000

  datatype Timespec = Timespec(sec: int, nsec: int)

  /** Lines 514-515: the request for `us` microseconds as seconds plus
      nanoseconds, with the nanoseconds below one second. */
  function SleepRequest(us: nat): (ts: Timespec)
    requires us < Two32
    ensures ts.sec >= 0 && 0 <= ts.nsec < NsecPerSec
    ensures ts.nsec % NsecPerUsec == 0
    ensures ts.sec * NsecPerSec + ts.nsec == us * NsecPerUsec
  {
    var sec := us / UsecPerSec;
    Timespec(sec, (us - sec * UsecPerSec) * NsecPerUsec)
  }

  /** What one probe records: `slept` goes to the sleep-time set, `late` to
      the two latency sets. */
  datatype Sample = Sample(slept: Timeval, late: Timeval)

  /** Lines 523-531: the elapsed time between the two clock readings, and the
      elapsed time minus the request, where the request is placed whole in the
      microsecond field (`utime.tv_usec = microseconds`). The lateness is
      exact in microseconds; it is normalized exactly when the request is at
      most one second more than the elapsed time's microsecond field, so
      always for requests of at most one second. */
  function Measure(us: nat, stime: Timeval, etime: Timeval): (p: Sample)
    requires us < Two32
    ensures Micros(p.slept) == Micros(etime) - Micros(stime)
    ensures Micros(p.late) == Micros(etime) - Micros(stime) - us
    ensures Normalized(stime) && Normalized(etime) ==>
              Normalized(p.slept) &&
              (Normalized(p.late) <==> us <= UsecPerSec + p.slept.usec)
    ensures Normalized(stime) && Normalized(etime) && us <= UsecPerSec ==> Normalized(p.late)
  {
    var dtime := TimerSub(etime, stime);
    var utime := TV(0, us);
    Sample(dtime, TimerSub(dtime, utime))
  }

  /** A request of two seconds that is met exactly is recorded as zero
      lateness in an unnormalized form: one second and minus one million
      microseconds. */
  lemma LongRequestUnnormalized()
    ensures Measure(2 * UsecPerSec, TV(0, 0), TV(2, 0)).late == TV(1, -UsecPerSec)
    ensures !Normalized(Measure(2 * UsecPerSec, TV(0, 0), TV(2, 0)).late)
  {
  }
}

=== FILE: sample_loop.dfy ===
/** The measurement loop of late.c's `main` (lines 315-351), the work timing
    of `work_memcpy`, the recording half of `test_latency`, and the two signal
    handlers `sigalarm` (the once-a-second tick) and `finished` (SIGINT).

    Signals are modelled as events between cycles: before each evaluation of
    the loop condition some ticks and possibly a SIGINT are delivered, and a
    SIGINT may also arrive while the work runs, where line 343 sees it. Every
    clock reading a cycle takes is an input of that cycle. */
module SampleLoop {
  import opened CInt
  import opened Timevals
  import opened IntervalSets
  import Latency

  /** The command-line settings the loop reads. */
  datatype Config = Config(
    iflag: bool,   // -i given: run a fixed number of iterations
    icount: int,   // the iteration count of -i
    wmicro: int,   // work per cycle; zero switches the work off
    smicro: int,   // sleep per cycle in microseconds; zero switches the probe off
    rsecs: int,    // -r: run time in seconds; zero means no limit
    bflag: bool,   // -b: settle for two seconds before the run
    xflag: bool)   // -x: per-second report and reset of the current sets

  /** The five global interval sets. */
  datatype Sets = Sets(lat: ISet, latCur: ISet, work: ISet, workCur: ISet, sleep: ISet)

  /** The global state the loop and the handlers share. `seconds` is the
      handler's static `sigcount`. */
  datatype RunState = RunState(done: bool, icount: int, seconds: nat, sets: Sets)

  /** Signals delivered between two evaluations of the loop condition. */
  datatype Signals = Signals(ticks: nat, interrupt: bool)

  /** The inputs of one cycle: the signals delivered before its loop test, the
      clock readings around the work, whether SIGINT arrived during the work,
      the clock readings around the sleep, and the clock reading of the run
      time check. */
  datatype Cycle = Cycle(
    before: Signals,
    workStart: Timeval, workEnd: Timeval,
    interruptDuringWork: bool,
    sleepStart: Timeval, sleepEnd: Timeval,
    now: Timeval)

  datatype Exit = Interrupted | CountReached | TimeUp | InputExhausted

  /** How the loop ended, the state then, and how many cycle bodies ran. */
  datatype Finish = Finish(exit: Exit, state: RunState, cycles: nat)

  /** Lines 297-300: all sets start empty (`sleep_set` by static
      initialisation). */
  function InitialSets(): (s: Sets)
    ensures s.lat == Init() && s.latCur == Init() && s.work == Init()
    ensures s.workCur == Init() && s.sleep == Init()
    ensures s.lat.count == 0 && s.latCur.count == 0 && s.work.count == 0
    ensures s.workCur.count == 0 && s.sleep.count == 0
  {
    Sets(Init(), Init(), Init(), Init(), Init())
  }

  /** `work_memcpy`: the time between the two readings around the copy loop
      goes into both work sets; the other sets are untouched. */
  function Work(sets: Sets, start: Timeval, end: Timeval): (r: Sets)
    ensures r.lat == sets.lat && r.latCur == sets.latCur && r.sleep == sets.sleep
    ensures r.work.count == sets.work.count + 1 && r.workCur.count == sets.workCur.count + 1
    ensures Micros(r.work.total) == Micros(sets.work.total) + Micros(end) - Micros(start)
    ensures Micros(r.workCur.total) == Micros(sets.workCur.total) + Micros(end) - Micros(start)
    ensures Normalized(start) && Normalized(end) && Normalized(sets.work.max) ==>
              Micros(end) - Micros(start) <= Micros(r.work.max)
  {
    var dtime := TimerSub(end, start);
    sets.(work := Add(sets.work, dtime), workCur := Add(sets.workCur, dtime))
  }

  /** The recording half of `test_latency(us)`: the time slept goes into the
      sleep set, the time slept minus the request into both latency sets; the
      work sets are untouched. */
  function Probe(sets: Sets, us: nat, start: Timeval, end: Timeval): (r: Sets)
    requires us < Two32
    ensures r.work == sets.work && r.workCur == sets.workCur
    ensures r.sleep.count == sets.sleep.count + 1
    ensures r.lat.count == sets.lat.count + 1 && r.latCur.count == sets.latCur.count + 1
    ensures Micros(r.sleep.total) == Micros(sets.sleep.total) + Micros(end) - Micros(start)
    ensures Micros(r.lat.total) == Micros(sets.lat.total) + Micros(end) - Micros(start) - us
    ensures Micros(r.latCur.total) == Micros(sets.latCur.total) + Micros(end) - Micros(start) - us
  {
    var p := Latency.Measure(us, start, end);
    sets.(sleep := Add(sets.sleep, p.slept),
          lat := Add(sets.lat, p.late),
          latCur := Add(sets.latCur, p.late))
  }

  /** `sigalarm`: counts the second and, with -x, empties the two current
      sets after reporting them. The lifetime sets are never touched. */
  function Tick(s: RunState, xflag: bool): (r: RunState)
    ensures r.seconds == s.seconds + 1 && r.done == s.done && r.icount == s.icount
    ensures r.sets.lat == s.sets.lat && r.sets.work == s.sets.work && r.sets.sleep == s.sets.sleep
    ensures xflag ==> r.sets.latCur == Init() && r.sets.workCur == Init()
    ensures !xflag ==> r.sets == s.sets
  {
    var sets := if xflag then s.sets.(workCur := Init(), latCur := Init()) else s.sets;
    s.(seconds := s.seconds + 1, sets := sets)
  }

  /** Delivery of the signals that arrived between two loop tests: the ticks,
      then SIGINT, whose handler `finished` sets `done`. */
  function Deliver(s: RunState, sig: Signals, xflag: bool): (r: RunState)
    ensures r.done == (s.done || sig.interrupt)
    ensures r.icount == s.icount && r.seconds == s.seconds + sig.ticks
    ensures r.sets.lat == s.sets.lat && r.sets.work == s.sets.work && r.sets.sleep == s.sets.sleep
    ensures xflag && sig.ticks > 0 ==> r.sets.latCur == Init() && r.sets.workCur == Init()
    ensures !xflag || sig.ticks == 0 ==> r.sets == s.sets
    decreases sig.ticks
  {
    if sig.ticks == 0 then s.(done := s.done || sig.interrupt)
    else Deliver(Tick(s, xflag), Signals(sig.ticks - 1, sig.interrupt), xflag)
  }

  /** Lines 341-344: the work, when configured, then the probe, unless `done`
      has been set by now or no sleep is configured. */
  function RunCycle(cfg: Config, s: RunState, c: Cycle): (r: RunState)
    ensures r.done == (s.done || c.interruptDuringWork)
    ensures r.icount == s.icount && r.seconds == s.seconds
    ensures r.sets.work.count == s.sets.work.count + (if cfg.wmicro != 0 then 1 else 0)
    ensures r.sets.workCur.count == s.sets.workCur.count + (if cfg.wmicro != 0 then 1 else 0)
    ensures var probed := if !r.done && cfg.smicro != 0 then 1 else 0;
            r.sets.sleep.count == s.sets.sleep.count + probed &&
            r.sets.lat.count == s.sets.lat.count + probed &&
            r.sets.latCur.count == s.sets.latCur.count + probed
    ensures r.done ==>
              r.sets.sleep == s.sets.sleep && r.sets.lat == s.sets.lat && r.sets.latCur == s.sets.latCur
  {
    var worked := if cfg.wmicro != 0 then Work(s.sets, c.workStart, c.workEnd) else s.sets;
    var done := s.done || c.interruptDuringWork;
    var probed :=
      if !done && cfg.smicro != 0
      then Probe(worked, AsUint32(cfg.smicro), c.sleepStart, c.sleepEnd)
      else worked;
    s.(done := done, sets := probed)
  }

  /** The settling time of -b (lines 323 and 330-331). */
  const SettleTime: Timeval := TV(2, 0)

  /** The offset -b adds to the start time, in microseconds. */
  function Settle(bflag: bool): int {
    if bflag then Micros(SettleTime) else 0
  }

  /** Lines 330-332: with -b the start time is moved `SettleTime` later, so
      the settling sleep counts against the run time. */
  function Baseline(bflag: bool, clock: Timeval): (r: Timeval)
    ensures Micros(r) == Micros(clock) + Settle(bflag)
    ensures Normalized(clock) ==> Normalized(r)
  {
    if bflag then TimerAdd(clock, SettleTime) else clock
  }

  /** Lines 345-349: the run time check, `wstime < now - rsecs` by `timercmp`. */
  predicate Expired(rsecs: int, wstime: Timeval, now: Timeval) {
    rsecs != 0 && TimerCmp(wstime, TV(now.sec - rsecs, now.usec), Lt)
  }

  /** For normalized readings the run time check fires exactly when more than
      `rsecs` seconds have passed since the start time. */
  lemma ExpiredMeansElapsed(rsecs: int, wstime: Timeval, now: Timeval)
    requires Normalized(wstime) && Normalized(now)
    ensures Expired(rsecs, wstime, now) <==>
              rsecs != 0 && Micros(now) - Micros(wstime) > rsecs * UsecPerSec
  {
    assert Micros(TV(now.sec - rsecs, now.usec)) == Micros(now) - rsecs * UsecPerSec;
  }

  /** The elapsed times `work_memcpy` records, one per cycle. */
  function WorkTimes(cs: seq<Cycle>): seq<Timeval> {
    seq(|cs|, k requires 0 <= k < |cs| => TimerSub(cs[k].workEnd, cs[k].workStart))
  }

  /** The number of probes among the first `n` cycles of a loop that ran `n`
      cycles: every cycle probes when a sleep is configured, except a last
      cycle during whose work SIGINT arrived. */
  function Probes(cfg: Config, cs: seq<Cycle>, n: nat): nat
    requires n <= |cs|
  {
    if cfg.smicro == 0 || n == 0 then 0
    else if cs[n - 1].interruptDuringWork then n - 1
    else n
  }

  predicate NoInterrupts(cs: seq<Cycle>) {
    forall k :: 0 <= k < |cs| ==> !cs[k].before.interrupt && !cs[k].interruptDuringWork
  }

  lemma AddAllCons(s: ISet, x: Timeval, xs: seq<Timeval>)
    ensures AddAll(s, [x] + xs) == AddAll(Add(s, x), xs)
  {
    assert ([x] + xs)[1..] == xs;
  }

  lemma WorkTimesCons(cs: seq<Cycle>, n: nat)
    requires 0 < n <= |cs|
    ensures WorkTimes(cs[..n]) == [TimerSub(cs[0].workEnd, cs[0].workStart)] + WorkTimes(cs[1..][..n - 1])
  {
  }

  /** The loop test passes: `done` is clear after the signals and the
      iteration count, when there is one, is not yet exhausted. */
  predicate Enters(cfg: Config, s: RunState, c: Cycle) {
    var s0 := Deliver(s, c.before, cfg.xflag);
    !s0.done && !(cfg.iflag && s0.icount == 0)
  }

  /** The state after one cycle: the signals, the post-decrement of the
      iteration count in the loop test, then the body. */
  function NextState(cfg: Config, s: RunState, c: Cycle): RunState {
    var s0 := Deliver(s, c.before, cfg.xflag);
    RunCycle(cfg, s0.(icount := if cfg.iflag then s0.icount - 1 else s0.icount), c)
  }

  /** The `while` loop of lines 340-351 from state `s` over the cycles `cs`.
      The test `!done && (!iflag || icount--)` exits on `done` first, then on
      an exhausted iteration count; the body is followed by the run time
      check. `InputExhausted` means the loop would go on but no inputs are
      left. */
  function Loop(cfg: Config, wstime: Timeval, s: RunState, cs: seq<Cycle>): (r: Finish)
    ensures r.cycles <= |cs|
    ensures r.exit == InputExhausted ==> r.cycles == |cs|
    ensures r.exit == Interrupted ==> r.state.done
    ensures r.exit == CountReached ==> cfg.iflag && s.icount >= 0 && r.cycles == s.icount
    ensures cfg.iflag && s.icount >= 0 ==> r.cycles <= s.icount
    ensures cfg.iflag && r.exit == InputExhausted ==> r.cycles != s.icount
    ensures r.exit == TimeUp ==> 0 < r.cycles && Expired(cfg.rsecs, wstime, cs[r.cycles - 1].now)
    decreases |cs|
  {
    var s0 := if |cs| > 0 then Deliver(s, cs[0].before, cfg.xflag) else s;
    if s0.done then Finish(Interrupted, s0, 0)
    else if cfg.iflag && s0.icount == 0 then Finish(CountReached, s0.(icount := -1), 0)
    else if |cs| == 0 then Finish(InputExhausted, s0, 0)
    else
      var s1 := NextState(cfg, s, cs[0]);
      if Expired(cfg.rsecs, wstime, cs[0].now) then Finish(TimeUp, s1, 1)
      else
        var rest := Loop(cfg, wstime, s1, cs[1..]);
        rest.(cycles := rest.cycles + 1)
  }

  /** One cycle of the loop, when the loop test passes. */
  lemma LoopUnfold(cfg: Config, wstime: Timeval, s: RunState, cs: seq<Cycle>)
    requires |cs| > 0 && Enters(cfg, s, cs[0])
    ensures var s1 := NextState(cfg, s, cs[0]);
            Loop(cfg, wstime, s, cs) ==
              if Expired(cfg.rsecs, wstime, cs[0].now) then Finish(TimeUp, s1, 1)
              else Loop(cfg, wstime, s1, cs[1..]).(cycles := Loop(cfg, wstime, s1, cs[1..]).cycles + 1)
  {
  }

  /** What one cycle adds to the lifetime sets. */
  lemma NextStateRecords(cfg: Config, s: RunState, c: Cycle)
    requires Enters(cfg, s, c)
    ensures var s1 := NextState(cfg, s, c);
            var probed := if cfg.smicro != 0 && !c.interruptDuringWork then 1 else 0;
            s1.done == c.interruptDuringWork &&
            s1.sets.sleep.count == s.sets.sleep.count + probed &&
            s1.sets.lat.count == s.sets.lat.count + probed &&
            s1.sets.work ==
              if cfg.wmicro != 0 then Add(s.sets.work, TimerSub(c.workEnd, c.workStart)) else s.sets.work
  {
  }

  /** The loop stops at the first SIGINT: every cycle began with `done`
      clear, and every cycle but the last saw no SIGINT during its work.
      Without any SIGINT, `done` is never set. */
  lemma {:induction false} LoopStopsAtFirstExit(cfg: Config, wstime: Timeval, s: RunState, cs: seq<Cycle>)
    ensures var r := Loop(cfg, wstime, s, cs);
            (r.cycles > 0 ==> !s.done) &&
            (forall k :: 0 <= k < r.cycles ==> !cs[k].before.interrupt) &&
            (forall k :: 0 <= k < r.cycles - 1 ==> !cs[k].interruptDuringWork) &&
            (!s.done && NoInterrupts(cs) ==> r.exit != Interrupted && !r.state.done)
    decreases |cs|
  {
    if |cs| > 0 && Enters(cfg, s, cs[0]) && !Expired(cfg.rsecs, wstime, cs[0].now) {
      LoopStopsAtFirstExit(cfg, wstime, NextState(cfg, s, cs[0]), cs[1..]);
    }
  }

  /** The loop stops at the first cycle past the run time: no cycle before
      the last passed it, and the last only if that is why the loop ended. */
  lemma {:induction false} LoopStopsAtTimeLimit(cfg: Config, wstime: Timeval, s: RunState, cs: seq<Cycle>)
    ensures var r := Loop(cfg, wstime, s, cs);
            (forall k :: 0 <= k < r.cycles - 1 ==> !Expired(cfg.rsecs, wstime, cs[k].now)) &&
            (r.exit != TimeUp ==> forall k :: 0 <= k < r.cycles ==> !Expired(cfg.rsecs, wstime, cs[k].now))
    decreases |cs|
  {
    if |cs| > 0 && Enters(cfg, s, cs[0]) && !Expired(cfg.rsecs, wstime, cs[0].now) {
      LoopStopsAtTimeLimit(cfg, wstime, NextState(cfg, s, cs[0]), cs[1..]);
    }
  }

  /** Adding the work times of the first `n` cycles is adding the first
      one, then those of the next `n - 1`. */
  lemma AddWorkTimesCons(w: ISet, cs: seq<Cycle>, n: nat)
    requires 0 < n <= |cs|
    ensures AddAll(w, WorkTimes(cs[..n])) ==
              AddAll(Add(w, TimerSub(cs[0].workEnd, cs[0].workStart)), WorkTimes(cs[1..][..n - 1]))
  {
    WorkTimesCons(cs, n);
    AddAllCons(w, TimerSub(cs[0].workEnd, cs[0].workStart), WorkTimes(cs[1..][..n - 1]));
  }

  /** The work set receives the work times of the cycles that ran, in order,
      when work is configured, and is untouched otherwise. */
  lemma {:induction false} LoopRecordsWork(cfg: Config, wstime: Timeval, s: RunState, cs: seq<Cycle>)
    ensures var r := Loop(cfg, wstime, s, cs);
            (cfg.wmicro != 0 ==> r.state.sets.work == AddAll(s.sets.work, WorkTimes(cs[..r.cycles]))) &&
            (cfg.wmicro == 0 ==> r.state.sets.work == s.sets.work)
    decreases |cs|
  {
    if |cs| > 0 && Enters(cfg, s, cs[0]) {
      var r := Loop(cfg, wstime, s, cs);
      var s1 := NextState(cfg, s, cs[0]);
      LoopUnfold(cfg, wstime, s, cs);
      NextStateRecords(cfg, s, cs[0]);
      if !Expired(cfg.rsecs, wstime, cs[0].now) {
        LoopRecordsWork(cfg, wstime, s1, cs[1..]);
      }
      if cfg.wmicro != 0 {
        AddWorkTimesCons(s.sets.work, cs, r.cycles);
      }
    }
  }

  lemma ProbesCons(cfg: Config, cs: seq<Cycle>, n: nat)
    requires 0 < n <= |cs|
    requires n == 1 || !cs[0].interruptDuringWork
    ensures Probes(cfg, cs, n) ==
              (if cfg.smicro != 0 && !cs[0].interruptDuringWork then 1 else 0) + Probes(cfg, cs[1..], n - 1)
  {
    if n > 1 {
      assert cs[n - 1] == cs[1..][n - 2];
    }
  }

  /** The sleep set and the lifetime latency set each receive one sample per
      probing cycle: every cycle when a sleep is configured, except a last
      cycle during whose work SIGINT arrived. */
  lemma {:induction false} LoopRecordsProbes(cfg: Config, wstime: Timeval, s: RunState, cs: seq<Cycle>)
    ensures var r := Loop(cfg, wstime, s, cs);
            r.state.sets.sleep.count == s.sets.sleep.count + Probes(cfg, cs, r.cycles) &&
            r.state.sets.lat.count == s.sets.lat.count + Probes(cfg, cs, r.cycles)
    decreases |cs|
  {
    if |cs| > 0 && Enters(cfg, s, cs[0]) {
      var r := Loop(cfg, wstime, s, cs);
      var s1 := NextState(cfg, s, cs[0]);
      LoopUnfold(cfg, wstime, s, cs);
      NextStateRecords(cfg, s, cs[0]);
      if !Expired(cfg.rsecs, wstime, cs[0].now) {
        LoopRecordsProbes(cfg, wstime, s1, cs[1..]);
        LoopStopsAtFirstExit(cfg, wstime, s1, cs[1..]);
      }
      ProbesCons(cfg, cs, r.cycles);
    }
  }

  /** Lines 297-351: all sets start empty and `done` clear, the start time is
      the first clock reading, moved two seconds later with -b, and the loop
      runs. The work set then holds exactly the work times of the cycles that
      ran, and the sleep and latency sets one sample per probing cycle. */
  function Run(cfg: Config, startClock: Timeval, cs: seq<Cycle>): (r: Finish)
    ensures r.cycles <= |cs|
    ensures cfg.iflag && cfg.icount >= 0 ==> r.cycles <= cfg.icount
    ensures r.exit == CountReached ==> cfg.iflag && r.cycles == cfg.icount
    ensures r.exit == TimeUp ==>
              0 < r.cycles && Expired(cfg.rsecs, Baseline(cfg.bflag, startClock), cs[r.cycles - 1].now)
    ensures cfg.wmicro != 0 ==> r.state.sets.work == AddAll(Init(), WorkTimes(cs[..r.cycles]))
    ensures cfg.wmicro == 0 ==> r.state.sets.work.count == 0
    ensures r.state.sets.sleep.count == Probes(cfg, cs, r.cycles)
    ensures r.state.sets.lat.count == Probes(cfg, cs, r.cycles)
  {
    var s := RunState(false, cfg.icount, 0, InitialSets());
    var wstime := Baseline(cfg.bflag, startClock);
    LoopRecordsWork(cfg, wstime, s, cs);
    LoopRecordsProbes(cfg, wstime, s, cs);
    Loop(cfg, wstime, s, cs)
  }

  /** With -i and a non-negative count, no run time limit and no SIGINT, the
      loop body runs exactly `icount` times, and each configured work and
      probe is recorded that many times. */
  lemma ExactIterations(cfg: Config, startClock: Timeval, cs: seq<Cycle>)
    requires cfg.iflag && cfg.icount >= 0 && cfg.rsecs == 0
    requires NoInterrupts(cs) && |cs| >= cfg.icount
    ensures Run(cfg, startClock, cs).exit == CountReached
    ensures Run(cfg, startClock, cs).cycles == cfg.icount
    ensures cfg.wmicro != 0 ==> Run(cfg, startClock, cs).state.sets.work.count == cfg.icount
    ensures cfg.smicro != 0 ==> Run(cfg, startClock, cs).state.sets.sleep.count == cfg.icount
    ensures cfg.smicro != 0 ==> Run(cfg, startClock, cs).state.sets.lat.count == cfg.icount
  {
    var s := RunState(false, cfg.icount, 0, InitialSets());
    var wstime := Baseline(cfg.bflag, startClock);
    LoopStopsAtFirstExit(cfg, wstime, s, cs);
  }

  /** A SIGINT delivered before a loop test ends the loop there: no cycle
      body runs and no lifetime set changes. */
  lemma InterruptBeforeCycle(cfg: Config, wstime: Timeval, s: RunState, cs: seq<Cycle>)
    requires |cs| > 0 && cs[0].before.interrupt
    ensures Loop(cfg, wstime, s, cs).exit == Interrupted
    ensures Loop(cfg, wstime, s, cs).cycles == 0
    ensures Loop(cfg, wstime, s, cs).state.sets.work == s.sets.work
    ensures Loop(cfg, wstime, s, cs).state.sets.lat == s.sets.lat
    ensures Loop(cfg, wstime, s, cs).state.sets.sleep == s.sets.sleep
  {
  }

  /** With normalized clock readings the run ends on its time limit exactly
      at the first cycle whose clock reading is more than `rsecs` seconds past
      the start (plus two seconds with -b). */
  lemma RunTimeLimit(cfg: Config, startClock: Timeval, cs: seq<Cycle>)
    requires Normalized(startClock)
    requires forall k :: 0 <= k < |cs| ==> Normalized(cs[k].now)
    ensures var r := Run(cfg, startClock, cs);
            r.exit == TimeUp ==>
              Micros(cs[r.cycles - 1].now) - Micros(startClock) - Settle(cfg.bflag) > cfg.rsecs * UsecPerSec
    ensures var r := Run(cfg, startClock, cs);
            cfg.rsecs != 0 ==> forall k :: 0 <= k < r.cycles - 1 ==>
              Micros(cs[k].now) - Micros(startClock) - Settle(cfg.bflag) <= cfg.rsecs * UsecPerSec
    ensures var r := Run(cfg, startClock, cs);
            r.exit != TimeUp && cfg.rsecs != 0 ==>
              forall k :: 0 <= k < r.cycles ==>
                Micros(cs[k].now) - Micros(startClock) - Settle(cfg.bflag) <= cfg.rsecs * UsecPerSec
  {
    var s := RunState(false, cfg.icount, 0, InitialSets());
    var wstime := Baseline(cfg.bflag, startClock);
    var r := Run(cfg, startClock, cs);
    assert r == Loop(cfg, wstime, s, cs);
    assert Micros(wstime) == Micros(startClock) + Settle(cfg.bflag);
    LoopStopsAtTimeLimit(cfg, wstime, s, cs);
    forall k | 0 <= k < |cs|
      ensures Expired(cfg.rsecs, wstime, cs[k].now) <==>
                cfg.rsecs != 0 && Micros(cs[k].now) - Micros(wstime) > cfg.rsecs * UsecPerSec
    {
      ExpiredMeansElapsed(cfg.rsecs, wstime, cs[k].now);
    }
  }
}

=== FILE: timeval.dfy ===
/** `struct timeval` and the fallback `timeradd`, `timersub` and `timercmp`
    macros of late.c. A value is a pair of seconds and microseconds; the
    macros keep the microsecond field in range with one carry or one borrow. */
module Timevals {

  const UsecPerSec: int := 1000000

  datatype Timeval = TV(sec: int, usec: int)

  /** The representation `gettimeofday` produces: 0 <= usec < 1000000. */
  predicate Normalized(t: Timeval) {
    0 <= t.usec < UsecPerSec
  }

  /** The duration a value stands for, in microseconds. */
  function Micros(t: Timeval): int {
    t.sec * UsecPerSec + t.usec
  }

  /** `timeradd`: add fieldwise, then carry once if the microseconds overflow. */
  function TimerAdd(a: Timeval, b: Timeval): (r: Timeval)
    ensures Micros(r) == Micros(a) + Micros(b)
    ensures Normalized(a) && Normalized(b) ==> Normalized(r)
  {
    var sec := a.sec + b.sec;
    var usec := a.usec + b.usec;
    if usec >= UsecPerSec then TV(sec + 1, usec - UsecPerSec) else TV(sec, usec)
  }

  /** `timersub`: subtract fieldwise, then borrow once if the microseconds
      went negative. The seconds may end up negative; the microseconds are in
      range whenever the first operand's are and the second's are at most one
      second. */
  function TimerSub(a: Timeval, b: Timeval): (r: Timeval)
    ensures Micros(r) == Micros(a) - Micros(b)
    ensures 0 <= a.usec < UsecPerSec && 0 <= b.usec <= UsecPerSec ==> Normalized(r)
  {
    var sec := a.sec - b.sec;
    var usec := a.usec - b.usec;
    if usec < 0 then TV(sec - 1, usec + UsecPerSec) else TV(sec, usec)
  }

  /** The C relational operator passed as the `cmp` argument of `timercmp`. */
  datatype Relation = Lt | Le | Gt | Ge | Eq | Ne

  function Holds(op: Relation, x: int, y: int): bool {
    match op
    case Lt => x < y
    case Le => x <= y
    case Gt => x > y
    case Ge => x >= y
    case Eq => x == y
    case Ne => x != y
  }

  /** Lexicographic order on (seconds, microseconds). */
  predicate LexLe(a: Timeval, b: Timeval) {
    a.sec < b.sec || (a.sec == b.sec && a.usec <= b.usec)
  }

  /** `timercmp(a, b, op)`: compare the microseconds when the seconds are equal,
      the seconds otherwise. That is the lexicographic order on the two fields
      for every input, and the order of the durations for normalized inputs. */
  function TimerCmp(a: Timeval, b: Timeval, op: Relation): (r: bool)
    ensures op == Le ==> (r <==> LexLe(a, b))
    ensures op == Gt ==> (r <==> !LexLe(a, b))
    ensures op == Ge ==> (r <==> LexLe(b, a))
    ensures op == Lt ==> (r <==> !LexLe(b, a))
    ensures op == Eq ==> (r <==> a == b)
    ensures op == Ne ==> (r <==> a != b)
    ensures Normalized(a) && Normalized(b) ==> (r <==> Holds(op, Micros(a), Micros(b)))
  {
    if a.sec == b.sec then Holds(op, a.usec, b.usec) else Holds(op, a.sec, b.sec)
  }

  /** `timersub` undoes `timeradd` on normalized values. */
  lemma SubUndoesAdd(a: Timeval, b: Timeval)
    requires Normalized(a) && Normalized(b)
    ensures TimerSub(TimerAdd(a, b), b) == a
  {
  }
}
